=== FILE: README.md ===
# scanner_frontend: the `AppComponent` controller in Dafny

The front-end captures camera frames and uploads a snapshot to an
image-processing backend. It then shows the processed image and the barcodes
that come back. All of its logic sits in the root controller `AppComponent`
(`src/app/app.component.ts`). This project models that controller and proves
properties of the model. The controller has three parts:

- **`dataURItoBlob`** turns the camera widget's `data:<mime>;base64,<payload>`
  URI into bytes. It splits the URI on `,` and demands exactly two parts. It
  decodes the payload with `atob` and reads the MIME type with
  `split(':')[1].split(';')[0]`. Any exception becomes `null`. Modules:
  `JsString` (the `split` it relies on), `Base64` (what `atob` computes),
  `FileApi` (the Blob and File records) and `DataUri` (the function itself).
- **The response step**: the `subscribe` callback in `handleImage`. It stores
  `'data:image/jpeg;base64,' + processedImage` and replaces the barcode list,
  each only when the field is present and non-empty.
- **The handlers** `toggleWebcam`, `addMessage`, `handleInitError`,
  `cameraWasSwitched`, `handleImage`, the device-count rule of
  `readAvailableVideoInputs`, and the `videoOptions` getter. Each is a
  function from one immutable `State` record to the next. Module
  `AppComponent` holds them, together with an event type, `Step`/`Run`, and
  an invariant that every reachable state keeps.

`atob` is modelled as the "forgiving-base64 decode" algorithm of the WHATWG
Infra Standard, which is what `atob` runs:

- ASCII whitespace is removed.
- One or two trailing `=` are removed when the length is a multiple of four.
- A length of 1 modulo 4 is rejected.
- Every remaining character must be in the alphabet of section 4 of RFC 4648.
- Leftover low bits are discarded.

The round-trip properties are stated for canonical padded base64, that is
sections 3.5 and 4 of RFC 4648. `Base64.Encode` is that canonical encoder.

A Blob holds a type and bytes; a File also holds a name. Their `type`
option is normalised as section 3.1 of the W3C File API says: a type with a
character outside U+0020..U+007E becomes empty, and any other type is
lower-cased. A `null` blob part becomes the UTF-8 text "null", as WebIDL
converts it.

Points where the code's behaviour is easy to misread, and what the model does:

- `split(',')` cuts at every comma, not only the first. So a URI with two
  commas gives three parts, and `dataURItoBlob` returns `null`.
- `handleImage` does not check the result of `dataURItoBlob`. A URI that
  does not decode still produces a four-byte file holding "null", and that
  file is uploaded. `Step` and `Run` model the handler as written (see
  Findings). `Upload` and `HandleImage` are the handler with the null check
  added, and serve as the corrected half of the finding.
- `handleInitError` pushes the error object to the END of the log and puts
  the denial text at the FRONT, through `addMessage`.
- A processed image must be non-empty as well as present, because JavaScript
  treats an empty string as false.
- The MIME type ends at the first `;` or at a second `:`, because the code
  takes field 1 of `split(':')`.

## Model

| member | source | states |
|---|---|---|
| `JsString.Split` | src/app/app.component.ts:141 | `split(',')` gives one part more than there are separators, and no part contains the separator |
| `JsString.JoinOfSplit` | src/app/app.component.ts:141 | joining the parts of a split with the separator gives the original string back |
| `JsString.SplitOfJoin` | src/app/app.component.ts:141 | splitting the join of separator-free parts gives those parts back, so split and join are inverse |
| `DataUri.SplitAtOnlySeparator` | src/app/app.component.ts:141-143 | a URI with exactly one comma splits into the text before it and the text after it |
| `DataUri.DataUriToBlob` | src/app/app.component.ts:139-160 | null for zero or two or more commas; non-null exactly when there is one comma, the header has a `:` and the payload decodes; then the bytes are the payload's decoding and the type is the header's MIME type, normalised |
| `Base64.Decode` | src/app/app.component.ts:146 | `atob` after whitespace and padding are removed: a length of 1 modulo 4 fails, and a success gives three bytes for every four characters, rounded down |
| `DataUri.Atob` | src/app/app.component.ts:146 | `atob` fails exactly when base64 decoding fails; otherwise it gives one character per decoded byte, with that byte as its code |
| `Base64.DecodeOfEncode` | src/app/app.component.ts:146 | decoding the canonical encoding of any byte sequence gives those bytes back |
| `Base64.EncodeOfDecode` | src/app/app.component.ts:146 | a canonical padded payload decodes, and re-encoding the bytes gives the payload back |
| `Base64.EncodeIsCanonical` | src/app/app.component.ts:146 | every encoding has a length that is a multiple of four, uses only alphabet characters and at most two `=`, and has zero pad bits |
| `Base64.DecodedLength` | src/app/app.component.ts:146-148 | a canonical payload decodes to three bytes per four characters, less one byte per `=`, so the ArrayBuffer has that length |
| `Base64.RejectsForeignCharacter` | src/app/app.component.ts:146 | a character that is not in the alphabet, not whitespace and not `=` makes `atob` fail |
| `Base64.RejectsLengthOneModFour` | src/app/app.component.ts:146 | alphabet text whose length is 1 modulo 4 makes `atob` fail |
| `Base64.DecodeValues` | src/app/app.component.ts:146 | every four base64 characters give three bytes, and a final group of two or three characters gives one or two bytes |
| `Base64.DecodeGroupBits` | src/app/app.component.ts:146 | four values read as one 24-bit number, most significant value first, give three bytes read most significant byte first (the bit order of section 4 of RFC 4648) |
| `Base64.DecodeTripleBits` | src/app/app.component.ts:146 | a trailing group of three values is an 18-bit number; its top sixteen bits are the two bytes and the two lowest bits are dropped |
| `Base64.DecodePairBits` | src/app/app.component.ts:146 | a trailing group of two values is a 12-bit number; its top eight bits are the byte and the four lowest bits are dropped |
| `Base64.DecodeFoo` | src/app/app.component.ts:146 | `atob("Zm9v")` is `foo`, the test vector of section 10 of RFC 4648 |
| `Base64.DecodeFo` | src/app/app.component.ts:146 | `atob("Zm8=")` is `fo` (section 10 of RFC 4648) |
| `Base64.DecodeF` | src/app/app.component.ts:146 | `atob("Zg==")` is `f` (section 10 of RFC 4648) |
| `Base64.ValueOf` | src/app/app.component.ts:146 | the value of an alphabet character is the one whose character in Table 1 is that character |
| `DataUri.NoTruncation` | src/app/app.component.ts:148-153 | every character code `atob` produces is below 256, so the copy into the `Uint8Array` gives exactly the decoded bytes |
| `DataUri.MimeOf` | src/app/app.component.ts:147 | there is a MIME type exactly when the header has a `:`, and it never contains `;` |
| `DataUri.CharCodes` | src/app/app.component.ts:151-153 | one byte per character, each the character code modulo 256 as a `Uint8Array` stores it, so codes below 256 are kept exactly |
| `DataUri.MimeOfCharacterized` | src/app/app.component.ts:147 | there is a MIME type exactly when the header has a `:`; it is the text after the first `:` up to the next `:` or `;` or the end |
| `DataUri.MimeOfDataHeader` | src/app/app.component.ts:147 | the header `data:<mime>;base64` gives `<mime>` when `<mime>` has no `:` or `;` |
| `DataUri.DataUriRoundTrip` | src/app/app.component.ts:139-155 | `data:<mime>;base64,` followed by the encoding of any bytes decodes to exactly those bytes, with `<mime>` normalised as the type |
| `DataUri.DataUriOfCanonicalPayload` | src/app/app.component.ts:141-155 | for a canonical payload the Blob holds the payload's decoding at the expected length, and re-encoding it gives the payload back |
| `DataUri.JpegOfTwoZeroBytes` | src/app/app.component.ts:139-155 | `data:image/jpeg;base64,AAA=` decodes to two zero bytes of type `image/jpeg` |
| `FileApi.NewFile` | src/app/app.component.ts:75 | the file has the given name and normalised type; its bytes are the blob's, or the UTF-8 bytes of "null" when the part is null |
| `FileApi.NormalizeType` | src/app/app.component.ts:155 | a type with a non-printable character becomes empty; otherwise the type keeps its length and each character is lower-cased (`A`..`Z` move up by 32, others stay) |
| `FileApi.NormalizeTypeIdempotent` | src/app/app.component.ts:155 | normalising a type twice is the same as normalising it once |
| `AppComponent.OnInit` | src/app/app.component.ts:36-38 | start-up leaves the state alone and requests the list of video inputs |
| `AppComponent.ToggleWebcam` | src/app/app.component.ts:44-46 | `showWebcam` flips and nothing else changes |
| `AppComponent.ToggleTwice` | src/app/app.component.ts:44-46 | toggling twice restores the state |
| `AppComponent.AddMessage` | src/app/app.component.ts:110-113 | exactly one entry is put at the front, and the rest of the log keeps its order |
| `AppComponent.IsPermissionDenial` | src/app/app.component.ts:50 | the denial test holds exactly when the error carries a media-stream error named `NotAllowedError` |
| `AppComponent.HandleInitError` | src/app/app.component.ts:48-53 | the error becomes the last entry; the denial text is added at the front if and only if the error's name is `NotAllowedError`; the earlier entries stay in order between them; the log gains exactly those entries |
| `AppComponent.CameraWasSwitched` | src/app/app.component.ts:104-108 | `deviceId` becomes the id; exactly one entry, `Active device: ` followed by the id, is put at the front; the video inputs are listed again |
| `AppComponent.VideoInputsListed` | src/app/app.component.ts:132-137 | the switch control is shown exactly when two or more video inputs are listed; with none, one, or no list it is hidden; nothing else changes |
| `AppComponent.VideoOptions` | src/app/app.component.ts:123-130 | the constraints have `facingMode.ideal` equal to the facing mode when it is non-empty, and are empty otherwise |
| `AppComponent.IsDataUrl` | src/app/app.component.ts:71 | the guard holds exactly when the data begins with the five characters `data:` |
| `AppComponent.UploadAsWritten` | src/app/app.component.ts:71-78 | as written, a file is built exactly when the image data is non-empty and starts with `data:`; it is `image.jpg` of type `image/jpeg`, holding the decoded bytes, or the four bytes of "null" when the URI does not decode |
| `AppComponent.HandleImageAsWritten` | src/app/app.component.ts:62-101 | `Received webcam image` is always put at the front of the log; an upload is requested exactly when the data starts with `data:`, and it uploads the file the code builds; otherwise nothing is requested |
| `AppComponent.UndecodableUploadedAsWritten` | src/app/app.component.ts:71-78 | as written, a `data:` URI that does not decode is still uploaded, as the four bytes of "null" named `image.jpg` |
| `AppComponent.CommaFreeUploadedAsWritten` | src/app/app.component.ts:71-78 | as written, the capture `data:` (no comma) uploads the four bytes of "null", both from the handler and from the controller's `Step` |
| `AppComponent.Upload` | src/app/app.component.ts:71-78 | with the null check, a file is built exactly when the URI is a `data:` URI that decodes, and it holds the decoded bytes |
| `AppComponent.HandleImage` | src/app/app.component.ts:62-101 | with the null check, the log gains `Received webcam image` at the front; an upload is requested exactly when the URI is a `data:` URI that decodes; otherwise nothing is requested |
| `AppComponent.UploadIsDecodedPayload` | src/app/app.component.ts:73-78 | every upload is the file `image.jpg` of type `image/jpeg` holding exactly the decoded payload, whatever MIME type the URI declared |
| `AppComponent.JpegCaptureUpload` | src/app/app.component.ts:62-78 | the capture `data:image/jpeg;base64,AAA=` uploads two zero bytes as `image.jpg` of type `image/jpeg` |
| `AppComponent.ApplyResponse` | src/app/app.component.ts:83-95 | a present, non-empty `processedImage` sets the URL to the JPEG data-URI prefix followed by it; a present, non-empty barcode array replaces the list; otherwise each field is unchanged, and nothing else changes |
| `AppComponent.ApplyResponseIdempotent` | src/app/app.component.ts:83-95 | applying the same response twice is the same as applying it once |
| `AppComponent.ResponseFieldsIndependent` | src/app/app.component.ts:83-95 | the image update and the barcode update do not depend on each other, and can be applied in either order |
| `AppComponent.LastResponseWins` | src/app/app.component.ts:83-95 | a response with both fields set hides whatever an earlier response set |
| `AppComponent.ProcessedUrlDecodes` | src/app/app.component.ts:85 | the stored processed-image URL is a data URI that `dataURItoBlob` turns back into the backend's bytes, typed `image/jpeg` |
| `AppComponent.FullResponseExample` | src/app/app.component.ts:83-95 | the response `{processedImage: "Zm9v", barcodeData: ["123456"]}` gives the URL `data:image/jpeg;base64,Zm9v` and the list `["123456"]` |
| `AppComponent.EmptyBarcodesExample` | src/app/app.component.ts:92-95 | the response `{barcodeData: []}` changes nothing |
| `AppComponent.Step` | src/app/app.component.ts:36-137 | each event runs its handler as written; no handler shortens the log, and every upload is named `image.jpg` with type `image/jpeg` |
| `AppComponent.StepKeepsInvariant` | src/app/app.component.ts:15-26 | every handler keeps camera switching allowed and the facing mode `environment`, and keeps any processed-image URL a JPEG data URI with a non-empty payload |
| `AppComponent.RunKeepsInvariant` | src/app/app.component.ts:15-26 | every sequence of events keeps that invariant |
| `AppComponent.InitialInvariant` | src/app/app.component.ts:15-26 | the field initialisers satisfy the invariant |
| `AppComponent.ReachableVideoOptions` | src/app/app.component.ts:123-130 | in every reachable state the camera is asked for the `environment`-facing device |
| `AppComponent.RunKeepsLogLength` | src/app/app.component.ts:48-113 | over any sequence of events the message log never loses entries |

## Left out

- `triggerSnapshot`, `showNextWebcam`, `triggerObservable` and `nextWebcamObservable` are left out. They only forward values through rxjs `Subject`s to the external camera widget.
- The HTTP upload in `src/app/modules/webcam/webcam/image.service.ts` is left out. A handler's `UploadImage(file)` effect stands for the `uploadImage(file)` call, and the backend's answer is a separate `Answered` event. The source has no failure branch, so a failed upload yields no event.
- Device enumeration (`WebcamUtil.getAvailableVideoInputs`) is left out for the same reason. It is the `ListVideoInputs` effect plus a `DevicesListed` event. A missing device list is `None`: the source then stores a falsy value, modelled as `false`.
- Asynchronous ordering is left out. Each event is applied atomically, and overlapping uploads show up only as the order of their `Answered` events (last response wins).
- `webcamImage` (the "latest snapshot" field) is left out. It is initialised to `null` and never assigned.
- `console.log` and `console.error`, the templates and the styles are left out.
- `src/app/app.module.ts` is left out. It holds only Angular wiring and service-worker registration.
- JavaScript strings are UTF-16 code units, while Dafny strings are Unicode scalar values. The two differ only for characters outside the Basic Multilingual Plane and for lone surrogates, which a Dafny string cannot hold. No such character is a separator or in the base64 alphabet, and a lone surrogate makes `atob` fail and empties a Blob type in both.

## Findings

| source | as written | input that shows it | evidently intended | confidence | as-written member | corrected member |
|---|---|---|---|---|---|---|
| src/app/app.component.ts:73-78 | the result of `dataURItoBlob` goes unchecked into `new File([blob], 'image.jpg', ...)`, and WebIDL turns a `null` blob part into the string "null" | the capture `data:` (no comma, so `split(',')` gives one part): `dataURItoBlob` returns null, yet a 4-byte file holding `null` is uploaded | skip the upload when the URI does not decode: `dataURItoBlob` turns every failure into `return null` (:156-158), and `handleImage` already refuses invalid data in its `else` branch (:97-100), so a `null` blob is evidently meant to be refused too | not executed; follows from the File constructor's conversion of a null part | `AppComponent.CommaFreeUploadedAsWritten` | `AppComponent.UploadIsDecodedPayload` |

=== FILE: app_component.dfy ===
/** The root controller `AppComponent` (src/app/app.component.ts) as an
    immutable state record and one state-to-state function per handler.

    The two asynchronous collaborators are cut out and become inputs: a
    handler that would call them returns an Effect saying so (list the video
    inputs, upload a file), and the answer arrives later as its own event
    (`DevicesListed`, `Answered`). */
module AppComponent {
  import opened Optional
  import opened JsString
  import opened Base64
  import opened FileApi
  import opened DataUri

  /** The `name` of the DOM exception carried by a camera start-up error. */
  datatype MediaStreamError = MediaStreamError(name: string)

  datatype WebcamInitError = WebcamInitError(message: string, mediaStreamError: Option<MediaStreamError>)

  /** An entry of the `messages` log: a text, or an init error pushed as is. */
  datatype Message = Text(text: string) | InitFailure(error: WebcamInitError)

  /** The part of the camera widget's snapshot the component reads. */
  datatype WebcamImage = WebcamImage(imageAsDataUrl: string)

  /** The backend's JSON answer; a missing field is None. */
  datatype Response = Response(processedImage: Option<string>, barcodeData: Option<seq<string>>)

  datatype FacingConstraint = FacingConstraint(ideal: string)

  /** The `MediaTrackConstraints` returned by the `videoOptions` getter. */
  datatype VideoConstraints = VideoConstraints(facingMode: Option<FacingConstraint>)

  datatype State = State(
    showWebcam: bool,
    allowCameraSwitch: bool,
    multipleWebcamsAvailable: bool,
    deviceId: Option<string>,
    facingMode: string,
    messages: seq<Message>,
    barcodeData: seq<string>,
    processedImageUrl: Option<string>)

  /** What a handler asks of the outside world. */
  datatype Effect = NoEffect | ListVideoInputs | UploadImage(file: File)

  datatype Transition = Transition(state: State, effect: Effect)

  const DeniedMessage: string := "User denied camera access"
  const ReceivedMessage: string := "Received webcam image"
  const ActiveDevicePrefix: string := "Active device: "
  const ProcessedPrefix: string := "data:image/jpeg;base64,"
  const UploadName: string := "image.jpg"
  const UploadType: string := "image/jpeg"

  /** The field initialisers of the class. */
  const Initial: State := State(
    showWebcam := true,
    allowCameraSwitch := true,
    multipleWebcamsAvailable := false,
    deviceId := None,
    facingMode := "environment",
    messages := [],
    barcodeData := [],
    processedImageUrl := None)

  /* ---------- handlers ---------- */

  /** `ngOnInit`: only asks for the list of video inputs. */
  function OnInit(st: State): (t: Transition)
    ensures t.state == st && t.effect == ListVideoInputs
  {
    Transition(st, ListVideoInputs)
  }

  function ToggleWebcam(st: State): (r: State)
    ensures r.showWebcam != st.showWebcam
    ensures r.(showWebcam := st.showWebcam) == st
  {
    st.(showWebcam := !st.showWebcam)
  }

  /** `addMessage`: the newest entry goes first. */
  function AddMessage(st: State, m: Message): (r: State)
    ensures |r.messages| == |st.messages| + 1
    ensures r.messages[0] == m && r.messages[1..] == st.messages
    ensures r.(messages := st.messages) == st
  {
    st.(messages := [m] + st.messages)
  }

  /** The error reports that the user refused the camera permission. */
  predicate IsPermissionDenial(e: WebcamInitError)
    ensures IsPermissionDenial(e) <==> e.mediaStreamError == Some(MediaStreamError("NotAllowedError"))
  {
    e.mediaStreamError.Some? && e.mediaStreamError.value.name == "NotAllowedError"
  }

  /** `handleInitError`: the error is pushed at the END of the log, and a
      denial adds the denial text at the front. */
  function HandleInitError(st: State, e: WebcamInitError): (r: State)
    ensures |r.messages| == |st.messages| + (if IsPermissionDenial(e) then 2 else 1)
    ensures r.messages[|r.messages| - 1] == InitFailure(e)
    ensures IsPermissionDenial(e) ==> r.messages[0] == Text(DeniedMessage)
    ensures r.messages[|r.messages| - |st.messages| - 1..|r.messages| - 1] == st.messages
    ensures multiset(r.messages) ==
      multiset(st.messages) + multiset{InitFailure(e)}
      + (if IsPermissionDenial(e) then multiset{Text(DeniedMessage)} else multiset{})
    ensures r.(messages := st.messages) == st
  {
    var pushed := st.(messages := st.messages + [InitFailure(e)]);
    if IsPermissionDenial(e) then AddMessage(pushed, Text(DeniedMessage)) else pushed
  }

  /** `cameraWasSwitched`: logs and stores the device id, then asks for the
      list of video inputs again. */
  function CameraWasSwitched(st: State, id: string): (t: Transition)
    ensures t.state.deviceId == Some(id)
    ensures |t.state.messages| == |st.messages| + 1
    ensures t.state.messages[1..] == st.messages
    ensures t.state.messages[0].Text?
    ensures StartsWith(t.state.messages[0].text, ActiveDevicePrefix)
    ensures t.state.messages[0].text[|ActiveDevicePrefix|..] == id
    ensures t.state.(messages := st.messages, deviceId := st.deviceId) == st
    ensures t.effect == ListVideoInputs
  {
    var logged := AddMessage(st, Text(ActiveDevicePrefix + id));
    Transition(logged.(deviceId := Some(id)), ListVideoInputs)
  }

  /** The `then` of `readAvailableVideoInputs`: `mediaDevices && length > 1`,
      where a missing list (None) gives a falsy value. */
  function VideoInputsListed(st: State, deviceCount: Option<nat>): (r: State)
    ensures r.multipleWebcamsAvailable <==> deviceCount.Some? && deviceCount.value >= 2
    ensures r.(multipleWebcamsAvailable := st.multipleWebcamsAvailable) == st
  {
    st.(multipleWebcamsAvailable := deviceCount.Some? && deviceCount.value > 1)
  }

  /** The `videoOptions` getter. */
  function VideoOptions(st: State): (c: VideoConstraints)
    ensures c.facingMode.Some? <==> st.facingMode != ""
    ensures c.facingMode.Some? ==> c.facingMode.value.ideal == st.facingMode
  {
    if st.facingMode != "" then VideoConstraints(Some(FacingConstraint(st.facingMode)))
    else VideoConstraints(None)
  }

  /** The guard of `handleImage`: a non-empty string starting with `data:`. */
  predicate IsDataUrl(imageData: string)
    ensures IsDataUrl(imageData) <==>
      && |imageData| >= 5
      && imageData[0] == 'd' && imageData[1] == 'a' && imageData[2] == 't'
      && imageData[3] == 'a' && imageData[4] == ':'
  {
    imageData != "" && StartsWith(imageData, "data:")
  }

  /** The file `handleImage` uploads, as the source builds it: the result of
      `dataURItoBlob` goes into `new File([blob], ...)` unchecked, so a `null`
      result becomes the four bytes of the text "null". */
  function UploadAsWritten(imageData: string): (f: Option<File>)
    ensures f.Some? <==> IsDataUrl(imageData)
    ensures f.Some? ==>
      && f.value.name == UploadName
      && f.value.mimeType == UploadType
      && f.value.bytes ==
           (if DataUriToBlob(imageData).Some? then DataUriToBlob(imageData).value.bytes
            else NullPartBytes())
  {
    JpegTypeIsNormal();
    if IsDataUrl(imageData) then
      Some(NewFile(DataUriToBlob(imageData), UploadName, UploadType))
    else None
  }

  /** The upload with the missing null check added: a URI that does not
      decode is not uploaded. */
  function Upload(imageData: string): (f: Option<File>)
    ensures f.Some? <==> IsDataUrl(imageData) && DataUriToBlob(imageData).Some?
    ensures f.Some? ==> f.value.bytes == DataUriToBlob(imageData).value.bytes
  {
    if IsDataUrl(imageData) then
      match DataUriToBlob(imageData)
      case Some(blob) => Some(NewFile(Some(blob), UploadName, UploadType))
      case None => None
    else None
  }

  function UploadEffect(f: Option<File>): Effect
  {
    match f
    case Some(file) => UploadImage(file)
    case None => NoEffect
  }

  /** `handleImage` as written. */
  function HandleImageAsWritten(st: State, image: WebcamImage): (t: Transition)
    ensures t.state.messages == [Text(ReceivedMessage)] + st.messages
    ensures t.state.(messages := st.messages) == st
    ensures t.effect.UploadImage? <==> IsDataUrl(image.imageAsDataUrl)
    ensures t.effect.UploadImage? ==> UploadAsWritten(image.imageAsDataUrl) == Some(t.effect.file)
    ensures !t.effect.UploadImage? ==> t.effect == NoEffect
  {
    Transition(AddMessage(st, Text(ReceivedMessage)), UploadEffect(UploadAsWritten(image.imageAsDataUrl)))
  }

  /** `handleImage` with the upload skipped when the URI does not decode. */
  function HandleImage(st: State, image: WebcamImage): (t: Transition)
    ensures t.state.messages == [Text(ReceivedMessage)] + st.messages
    ensures t.state.(messages := st.messages) == st
    ensures t.effect.UploadImage? <==>
      IsDataUrl(image.imageAsDataUrl) && DataUriToBlob(image.imageAsDataUrl).Some?
    ensures !t.effect.UploadImage? ==> t.effect == NoEffect
  {
    Transition(AddMessage(st, Text(ReceivedMessage)), UploadEffect(Upload(image.imageAsDataUrl)))
  }

  /** A string field of the response counts when it is present and
      non-empty (JavaScript truthiness). */
  predicate HasProcessedImage(resp: Response)
  {
    resp.processedImage.Some? && resp.processedImage.value != ""
  }

  predicate HasBarcodes(resp: Response)
  {
    resp.barcodeData.Some? && |resp.barcodeData.value| > 0
  }

  /** The `subscribe` callback of `handleImage`. */
  function ApplyResponse(st: State, resp: Response): (r: State)
    ensures HasProcessedImage(resp) ==>
      r.processedImageUrl == Some(ProcessedPrefix + resp.processedImage.value)
    ensures !HasProcessedImage(resp) ==> r.processedImageUrl == st.processedImageUrl
    ensures HasBarcodes(resp) ==> r.barcodeData == resp.barcodeData.value
    ensures !HasBarcodes(resp) ==> r.barcodeData == st.barcodeData
    ensures r.(processedImageUrl := st.processedImageUrl, barcodeData := st.barcodeData) == st
  {
    var withImage :=
      if HasProcessedImage(resp) then st.(processedImageUrl := Some(ProcessedPrefix + resp.processedImage.value))
      else st;
    if HasBarcodes(resp) then withImage.(barcodeData := resp.barcodeData.value) else withImage
  }

  /* ---------- the controller as an event machine ---------- */

  /** The callbacks the component receives, one per handler. */
  datatype Event =
    | Init
    | Toggle
    | InitError(error: WebcamInitError)
    | Image(image: WebcamImage)
    | Switched(deviceId: string)
    | DevicesListed(deviceCount: Option<nat>)
    | Answered(response: Response)

  function Step(st: State, ev: Event): (t: Transition)
    ensures |t.state.messages| >= |st.messages|
    ensures t.effect.UploadImage? ==>
      t.effect.file.name == UploadName && t.effect.file.mimeType == UploadType
  {
    match ev
    case Init => OnInit(st)
    case Toggle => Transition(ToggleWebcam(st), NoEffect)
    case InitError(e) => Transition(HandleInitError(st, e), NoEffect)
    case Image(image) =>
      JpegTypeIsNormal();
      HandleImageAsWritten(st, image)
    case Switched(id) => CameraWasSwitched(st, id)
    case DevicesListed(n) => Transition(VideoInputsListed(st, n), NoEffect)
    case Answered(resp) => Transition(ApplyResponse(st, resp), NoEffect)
  }

  /** The state after a sequence of events; the effects are requests whose
      answers, if any, are later events of the sequence. */
  function Run(st: State, events: seq<Event>): State
    decreases |events|
  {
    if |events| == 0 then st else Run(Step(st, events[0]).state, events[1..])
  }

  /** What every reachable state satisfies: camera switching stays allowed,
      the facing mode stays `environment`, and a processed-image URL, once
      set, is a JPEG data URI with a non-empty payload. */
  predicate Invariant(st: State)
  {
    && st.allowCameraSwitch
    && st.facingMode == "environment"
    && (st.processedImageUrl.Some? ==>
          StartsWith(st.processedImageUrl.value, ProcessedPrefix)
          && |st.processedImageUrl.value| > |ProcessedPrefix|)
  }

  /* ---------- lemmas ---------- */

  /** Toggling twice restores the state. */
  lemma ToggleTwice(st: State)
    ensures ToggleWebcam(ToggleWebcam(st)) == st
  {
  }

  /** The initial state has the invariant. */
  lemma InitialInvariant()
    ensures Invariant(Initial)
  {
  }

  lemma StepKeepsInvariant(st: State, ev: Event)
    requires Invariant(st)
    ensures Invariant(Step(st, ev).state)
  {
    match ev
    case Answered(resp) =>
      var r := ApplyResponse(st, resp);
      if HasProcessedImage(resp) {
        var url := ProcessedPrefix + resp.processedImage.value;
        assert url[..|ProcessedPrefix|] == ProcessedPrefix;
      }
    case _ =>
  }

  lemma {:induction false} RunKeepsInvariant(st: State, events: seq<Event>)
    requires Invariant(st)
    ensures Invariant(Run(st, events))
    decreases |events|
  {
    if |events| > 0 {
      StepKeepsInvariant(st, events[0]);
      RunKeepsInvariant(Step(st, events[0]).state, events[1..]);
    }
  }

  /** Whatever happened since start-up, the camera is asked for the
      environment-facing device. */
  lemma ReachableVideoOptions(events: seq<Event>)
    ensures VideoOptions(Run(Initial, events)) == VideoConstraints(Some(FacingConstraint("environment")))
  {
    InitialInvariant();
    RunKeepsInvariant(Initial, events);
  }

  /** The log never loses entries. */
  lemma {:induction false} RunKeepsLogLength(st: State, events: seq<Event>)
    ensures |Run(st, events).messages| >= |st.messages|
    decreases |events|
  {
    if |events| > 0 {
      RunKeepsLogLength(Step(st, events[0]).state, events[1..]);
    }
  }

  /** As written, a `data:` URI that does not decode is still uploaded: the
      file holds the four bytes of "null". */
  lemma UndecodableUploadedAsWritten(st: State, image: WebcamImage)
    requires IsDataUrl(image.imageAsDataUrl)
    requires DataUriToBlob(image.imageAsDataUrl) == None
    ensures HandleImageAsWritten(st, image).effect ==
      UploadImage(File(UploadName, UploadType, [0x6E, 0x75, 0x6C, 0x6C]))
  {
    JpegTypeIsNormal();
  }

  /** A capture with no comma, such as `data:`, is such a URI, and the
      controller requests that upload. */
  lemma CommaFreeUploadedAsWritten(st: State)
    ensures HandleImageAsWritten(st, WebcamImage("data:")).effect ==
      UploadImage(File(UploadName, UploadType, [0x6E, 0x75, 0x6C, 0x6C]))
    ensures Step(st, Image(WebcamImage("data:"))).effect ==
      UploadImage(File(UploadName, UploadType, [0x6E, 0x75, 0x6C, 0x6C]))
  {
    var u := "data:";
    assert u == ['d', 'a', 't', 'a', ':'];
    assert Count(u, ',') == 0;
    assert StartsWith(u, "data:");
    UndecodableUploadedAsWritten(st, WebcamImage(u));
  }

  /** With the null check, every upload carries exactly the bytes the URI's
      payload decodes to, under the fixed name and type. */
  lemma UploadIsDecodedPayload(st: State, image: WebcamImage)
    ensures var t, u := HandleImage(st, image), image.imageAsDataUrl;
      t.effect.UploadImage? ==>
        && Decode(Payload(u)).Some?
        && t.effect.file == File(UploadName, UploadType, Decode(Payload(u)).value)
  {
    JpegTypeIsNormal();
  }

  /** The capture `data:image/jpeg;base64,AAA=` uploads two zero bytes as a
      JPEG named `image.jpg`. */
  lemma JpegCaptureUpload(st: State)
    ensures HandleImage(st, WebcamImage("data:image/jpeg;base64,AAA=")).effect ==
      UploadImage(File(UploadName, UploadType, [0, 0]))
  {
    JpegCaptureIsDataUrl();
    JpegOfTwoZeroBytes();
    UploadOfDecodedUrl(st, "data:image/jpeg;base64,AAA=", Blob("image/jpeg", [0, 0]));
  }

  lemma JpegCaptureIsDataUrl()
    ensures IsDataUrl("data:image/jpeg;base64,AAA=")
  {
    var u := "data:image/jpeg;base64,AAA=";
    assert u[0] == 'd' && u[1] == 'a' && u[2] == 't' && u[3] == 'a' && u[4] == ':';
    assert u[..5] == "data:";
  }

  /** A data URL that converts to a Blob uploads exactly that Blob's bytes. */
  lemma UploadOfDecodedUrl(st: State, u: string, blob: Blob)
    ensures IsDataUrl(u) && DataUriToBlob(u) == Some(blob) ==>
      HandleImage(st, WebcamImage(u)).effect == UploadImage(File(UploadName, UploadType, blob.bytes))
  {
    JpegTypeIsNormal();
  }

  /** Applying the same response twice is applying it once. */
  lemma ApplyResponseIdempotent(st: State, resp: Response)
    ensures ApplyResponse(ApplyResponse(st, resp), resp) == ApplyResponse(st, resp)
  {
  }

  /** The two fields of a response are applied independently of each other. */
  lemma ResponseFieldsIndependent(st: State, image: Option<string>, barcodes: Option<seq<string>>)
    ensures ApplyResponse(st, Response(image, barcodes))
      == ApplyResponse(ApplyResponse(st, Response(image, None)), Response(None, barcodes))
    ensures ApplyResponse(st, Response(image, barcodes))
      == ApplyResponse(ApplyResponse(st, Response(None, barcodes)), Response(image, None))
  {
  }

  /** Last response wins: a response with both fields set hides whatever an
      earlier response set. */
  lemma LastResponseWins(st: State, earlier: Response, later: Response)
    requires HasProcessedImage(later) && HasBarcodes(later)
    ensures ApplyResponse(ApplyResponse(st, earlier), later) == ApplyResponse(st, later)
  {
  }

  /** The URL stored for a processed image is a data URI that the component's
      own decoder turns back into the backend's bytes, typed `image/jpeg`. */
  lemma ProcessedUrlDecodes(st: State, resp: Response, b: seq<uint8>)
    requires resp.processedImage == Some(Encode(b)) && |b| > 0
    ensures ApplyResponse(st, resp).processedImageUrl.Some?
    ensures DataUriToBlob(ApplyResponse(st, resp).processedImageUrl.value) == Some(Blob(UploadType, b))
  {
    EncodeNonEmpty(b);
    assert HasProcessedImage(resp);
    assert ApplyResponse(st, resp).processedImageUrl == Some(ProcessedPrefix + Encode(b));
    JpegDataUriRoundTrip(b);
  }

  /** The response `{ processedImage: "Zm9v", barcodeData: ["123456"] }`. */
  lemma FullResponseExample(st: State)
    ensures var r := ApplyResponse(st, Response(Some("Zm9v"), Some(["123456"])));
      r.processedImageUrl == Some("data:image/jpeg;base64,Zm9v") && r.barcodeData == ["123456"]
  {
    assert ProcessedPrefix + "Zm9v" == "data:image/jpeg;base64,Zm9v";
  }

  /** The response `{ barcodeData: [] }` changes nothing. */
  lemma EmptyBarcodesExample(st: State)
    ensures ApplyResponse(st, Response(None, Some([]))) == st
  {
  }
}

=== FILE: base64.dfy ===
/** Base64 as used by the component's `atob` call.

    Decoding follows the "forgiving-base64 decode" algorithm of the WHATWG
    Infra Standard, which is what `atob` runs: ASCII whitespace is dropped, one
    or two `=` are dropped when the length is a multiple of four, a remaining
    length of 1 modulo 4 is an error, every remaining character must be in the
    alphabet of Table 1 in section 4 of RFC 4648, and the bits left over after
    the last whole byte are discarded. Encoding is the canonical, padded
    encoding of section 4 of RFC 4648 (pad bits zero, section 3.5). */
module Base64 {
  import opened Optional

  type uint8 = x: int | 0 <= x < 256
  type sextet = x: int | 0 <= x < 64

  predicate IsAlphabetChar(c: char)
  {
    ('A' <= c <= 'Z') || ('a' <= c <= 'z') || ('0' <= c <= '9') || c == '+' || c == '/'
  }

  /** ASCII whitespace of the Infra Standard: TAB, LF, FF, CR and SPACE. */
  predicate IsAsciiWhitespace(c: char)
  {
    c == '\t' || c == '\n' || c as int == 0x0C || c == '\r' || c == ' '
  }

  /** The character that encodes the six-bit value `v`: Table 1 of RFC 4648,
      `A`-`Z` for 0-25, `a`-`z` for 26-51, `0`-`9` for 52-61, `+` and `/`. */
  function CharOf(v: sextet): (c: char)
    ensures IsAlphabetChar(c)
  {
    if v < 26 then (('A' as int) + v) as char
    else if v < 52 then (('a' as int) + v - 26) as char
    else if v < 62 then (('0' as int) + v - 52) as char
    else if v == 62 then '+'
    else '/'
  }

  /** The six-bit value an alphabet character encodes; the inverse of CharOf. */
  function ValueOf(c: char): (v: sextet)
    requires IsAlphabetChar(c)
    ensures CharOf(v) == c
  {
    if 'A' <= c <= 'Z' then c as int - 'A' as int
    else if 'a' <= c <= 'z' then c as int - 'a' as int + 26
    else if '0' <= c <= '9' then c as int - '0' as int + 52
    else if c == '+' then 62
    else 63
  }

  lemma ValueOfCharOf(v: sextet)
    ensures ValueOf(CharOf(v)) == v
  {
  }

  function RemoveWhitespace(s: string): (r: string)
    ensures |r| <= |s|
    ensures forall i | 0 <= i < |r| :: !IsAsciiWhitespace(r[i])
  {
    if |s| == 0 then ""
    else if IsAsciiWhitespace(s[0]) then RemoveWhitespace(s[1..])
    else [s[0]] + RemoveWhitespace(s[1..])
  }

  /** Drops one or two trailing `=` when the length is a multiple of four. */
  function RemovePadding(d: string): string
  {
    if |d| % 4 == 0 && |d| >= 1 && d[|d| - 1] == '=' then
      if |d| >= 2 && d[|d| - 2] == '=' then d[..|d| - 2] else d[..|d| - 1]
    else d
  }

  function Values(d: string): (q: seq<sextet>)
    requires forall i | 0 <= i < |d| :: IsAlphabetChar(d[i])
    ensures |q| == |d|
  {
    seq(|d|, i requires 0 <= i < |d| => ValueOf(d[i]))
  }

  function Chars(q: seq<sextet>): (d: string)
    ensures |d| == |q|
    ensures forall i | 0 <= i < |d| :: IsAlphabetChar(d[i])
  {
    seq(|q|, i requires 0 <= i < |q| => CharOf(q[i]))
  }

  /** Groups of four values give three bytes; a trailing group of three gives
      two bytes and one of two gives one byte, the leftover low bits being
      discarded. */
  function DecodeValues(q: seq<sextet>): (b: seq<uint8>)
    requires |q| % 4 != 1
    ensures |b| == |q| * 3 / 4
    decreases |q|
  {
    if |q| == 0 then []
    else
      var b0: uint8 := q[0] as int * 4 + q[1] / 16;
      if |q| == 2 then [b0]
      else
        var b1: uint8 := (q[1] as int % 16) * 16 + q[2] / 4;
        if |q| == 3 then [b0, b1]
        else
          var b2: uint8 := (q[2] as int % 4) * 64 + q[3];
          [b0, b1, b2] + DecodeValues(q[4..])
  }

  /** forgiving-base64 decode; None is the failure that makes `atob` throw. */
  function Decode(s: string): (r: Option<seq<uint8>>)
    ensures |RemovePadding(RemoveWhitespace(s))| % 4 == 1 ==> r.None?
    ensures r.Some? ==> |r.value| == |RemovePadding(RemoveWhitespace(s))| * 3 / 4
  {
    var d := RemovePadding(RemoveWhitespace(s));
    if |d| % 4 == 1 then None
    else if exists i | 0 <= i < |d| :: !IsAlphabetChar(d[i]) then None
    else Some(DecodeValues(Values(d)))
  }

  /** Three bytes give four values; a trailing one or two bytes give two or
      three values whose unused low bits are zero. */
  function EncodeValues(b: seq<uint8>): (q: seq<sextet>)
    ensures |q| == (|b| * 4 + 2) / 3
    decreases |b|
  {
    if |b| == 0 then []
    else
      var c0: sextet := b[0] / 4;
      if |b| == 1 then [c0, (b[0] % 4) * 16]
      else
        var c1: sextet := (b[0] % 4) * 16 + b[1] / 16;
        if |b| == 2 then [c0, c1, (b[1] % 16) * 4]
        else
          var c2: sextet := (b[1] % 16) * 4 + b[2] / 64;
          [c0, c1, c2, b[2] % 64] + EncodeValues(b[3..])
  }

  function Padding(n: nat): string
  {
    if n % 3 == 1 then "==" else if n % 3 == 2 then "=" else ""
  }

  /** Canonical padded encoding (section 4 of RFC 4648). */
  function Encode(b: seq<uint8>): string
  {
    Chars(EncodeValues(b)) + Padding(|b|)
  }

  /** Number of `=` that end `s` (at most two are counted). */
  function PadCount(s: string): (p: nat)
    ensures p <= 2 && p <= |s|
  {
    if |s| >= 2 && s[|s| - 1] == '=' && s[|s| - 2] == '=' then 2
    else if |s| >= 1 && s[|s| - 1] == '=' then 1
    else 0
  }

  /** A canonical encoding in the sense of sections 3.5 and 4 of RFC 4648:
      length a multiple of four, alphabet characters followed by at most two
      `=`, and the pad bits of the last encoded character zero. */
  predicate IsCanonical(s: string)
  {
    && |s| % 4 == 0
    && (forall i | 0 <= i < |Body(s)| :: IsAlphabetChar(Body(s)[i]))
    && (PadCount(s) == 1 ==> ValueOf(Body(s)[|Body(s)| - 1]) % 4 == 0)
    && (PadCount(s) == 2 ==> ValueOf(Body(s)[|Body(s)| - 1]) % 16 == 0)
  }

  /** The text before the trailing `=`. */
  function Body(s: string): (d: string)
    ensures |d| == |s| - PadCount(s)
    ensures |s| % 4 == 0 && PadCount(s) > 0 ==> |d| > 0
  {
    s[..|s| - PadCount(s)]
  }

  /* ---------- group arithmetic ---------- */

  lemma DecodeEncodeGroup(b0: uint8, b1: uint8, b2: uint8)
    ensures (b0 / 4) * 4 + ((b0 % 4) * 16 + b1 / 16) / 16 == b0
    ensures (((b0 % 4) * 16 + b1 / 16) % 16) * 16 + ((b1 % 16) * 4 + b2 / 64) / 4 == b1
    ensures (((b1 % 16) * 4 + b2 / 64) % 4) * 64 + b2 % 64 == b2
  {
  }

  lemma EncodeDecodeGroup(c0: sextet, c1: sextet, c2: sextet, c3: sextet)
    ensures (c0 * 4 + c1 / 16) / 4 == c0
    ensures ((c0 * 4 + c1 / 16) % 4) * 16 + ((c1 % 16) * 16 + c2 / 4) / 16 == c1
    ensures (((c1 % 16) * 16 + c2 / 4) % 16) * 4 + ((c2 % 4) * 64 + c3) / 64 == c2
    ensures ((c2 % 4) * 64 + c3) % 64 == c3
  {
  }

  /* ---------- round trips on values ---------- */

  lemma DecodeValuesSplit(head: seq<sextet>, rest: seq<sextet>)
    requires |head| == 4 && |rest| % 4 != 1
    ensures DecodeValues(head + rest) == DecodeValues(head) + DecodeValues(rest)
  {
    assert (head + rest)[4..] == rest;
    assert head[4..] == [];
  }

  lemma EncodeValuesSplit(head: seq<uint8>, rest: seq<uint8>)
    requires |head| == 3
    ensures EncodeValues(head + rest) == EncodeValues(head) + EncodeValues(rest)
  {
    assert (head + rest)[3..] == rest;
    assert head[3..] == [];
  }

  lemma DecodeEncodeTriple(b0: uint8, b1: uint8, b2: uint8)
    ensures DecodeValues(EncodeValues([b0, b1, b2])) == [b0, b1, b2]
  {
    var c0: sextet := b0 / 4;
    var c1: sextet := (b0 % 4) * 16 + b1 / 16;
    var c2: sextet := (b1 % 16) * 4 + b2 / 64;
    var c3: sextet := b2 % 64;
    assert [b0, b1, b2][3..] == [];
    assert EncodeValues([b0, b1, b2]) == [c0, c1, c2, c3];
    assert [c0, c1, c2, c3][4..] == [];
    DecodeEncodeGroup(b0, b1, b2);
  }

  lemma DecodeEncodePair(b0: uint8, b1: uint8)
    ensures DecodeValues(EncodeValues([b0, b1])) == [b0, b1]
  {
    var c0: sextet := b0 / 4;
    var c1: sextet := (b0 % 4) * 16 + b1 / 16;
    var c2: sextet := (b1 % 16) * 4;
    assert EncodeValues([b0, b1]) == [c0, c1, c2];
    DecodeEncodeGroup(b0, b1, 0);
  }

  lemma DecodeEncodeSingle(b0: uint8)
    ensures DecodeValues(EncodeValues([b0])) == [b0]
  {
    var c0: sextet := b0 / 4;
    var c1: sextet := (b0 % 4) * 16;
    assert EncodeValues([b0]) == [c0, c1];
    DecodeEncodeGroup(b0, 0, 0);
  }

  lemma DecodeEncodeThree(b: seq<uint8>)
    requires |b| == 3
    ensures DecodeValues(EncodeValues(b)) == b
  {
    assert b == [b[0], b[1], b[2]];
    DecodeEncodeTriple(b[0], b[1], b[2]);
  }

  lemma DecodeEncodeTwo(b: seq<uint8>)
    requires |b| == 2
    ensures DecodeValues(EncodeValues(b)) == b
  {
    assert b == [b[0], b[1]];
    DecodeEncodePair(b[0], b[1]);
  }

  lemma DecodeEncodeOne(b: seq<uint8>)
    requires |b| == 1
    ensures DecodeValues(EncodeValues(b)) == b
  {
    assert b == [b[0]];
    DecodeEncodeSingle(b[0]);
  }

  lemma DecodeEncodeShort(b: seq<uint8>)
    requires |b| <= 3
    ensures DecodeValues(EncodeValues(b)) == b
  {
    if |b| == 1 {
      DecodeEncodeOne(b);
    } else if |b| == 2 {
      DecodeEncodeTwo(b);
    } else if |b| == 3 {
      DecodeEncodeThree(b);
    }
  }

  lemma EncodeDecodeQuad(c0: sextet, c1: sextet, c2: sextet, c3: sextet)
    ensures EncodeValues(DecodeValues([c0, c1, c2, c3])) == [c0, c1, c2, c3]
  {
    var b0: uint8 := c0 * 4 + c1 / 16;
    var b1: uint8 := (c1 % 16) * 16 + c2 / 4;
    var b2: uint8 := (c2 % 4) * 64 + c3;
    assert [c0, c1, c2, c3][4..] == [];
    assert DecodeValues([c0, c1, c2, c3]) == [b0, b1, b2];
    assert [b0, b1, b2][3..] == [];
    EncodeDecodeGroup(c0, c1, c2, c3);
  }

  lemma EncodeDecodeTriple(c0: sextet, c1: sextet, c2: sextet)
    requires c2 % 4 == 0
    ensures EncodeValues(DecodeValues([c0, c1, c2])) == [c0, c1, c2]
  {
    var b0: uint8 := c0 * 4 + c1 / 16;
    var b1: uint8 := (c1 % 16) * 16 + c2 / 4;
    assert DecodeValues([c0, c1, c2]) == [b0, b1];
    EncodeDecodeGroup(c0, c1, c2, 0);
  }

  lemma EncodeDecodePair(c0: sextet, c1: sextet)
    requires c1 % 16 == 0
    ensures EncodeValues(DecodeValues([c0, c1])) == [c0, c1]
  {
    var b0: uint8 := c0 * 4 + c1 / 16;
    assert DecodeValues([c0, c1]) == [b0];
    EncodeDecodeGroup(c0, c1, 0, 0);
  }

  lemma EncodeDecodeFour(q: seq<sextet>)
    requires |q| == 4
    ensures EncodeValues(DecodeValues(q)) == q
  {
    assert q == [q[0], q[1], q[2], q[3]];
    EncodeDecodeQuad(q[0], q[1], q[2], q[3]);
  }

  lemma EncodeDecodeThree(q: seq<sextet>)
    requires |q| == 3 && q[2] % 4 == 0
    ensures EncodeValues(DecodeValues(q)) == q
  {
    assert q == [q[0], q[1], q[2]];
    EncodeDecodeTriple(q[0], q[1], q[2]);
  }

  lemma EncodeDecodeTwo(q: seq<sextet>)
    requires |q| == 2 && q[1] % 16 == 0
    ensures EncodeValues(DecodeValues(q)) == q
  {
    assert q == [q[0], q[1]];
    EncodeDecodePair(q[0], q[1]);
  }

  lemma EncodeDecodeShort(q: seq<sextet>)
    requires |q| <= 4 && |q| != 1
    requires TailBitsZero(q)
    ensures EncodeValues(DecodeValues(q)) == q
  {
    if |q| == 2 {
      EncodeDecodeTwo(q);
    } else if |q| == 3 {
      EncodeDecodeThree(q);
    } else if |q| == 4 {
      EncodeDecodeFour(q);
    }
  }

  lemma {:induction false} DecodeEncodeValues(b: seq<uint8>)
    ensures DecodeValues(EncodeValues(b)) == b
    decreases |b|
  {
    if |b| <= 3 {
      DecodeEncodeShort(b);
    } else {
      var head, rest := b[..3], b[3..];
      assert b == head + rest;
      EncodeValuesSplit(head, rest);
      DecodeValuesSplit(EncodeValues(head), EncodeValues(rest));
      DecodeEncodeShort(head);
      DecodeEncodeValues(rest);
    }
  }

  /** The low bits a trailing group of two or three values leaves unused are
      zero. */
  predicate TailBitsZero(q: seq<sextet>)
  {
    && (|q| % 4 == 2 ==> q[|q| - 1] % 16 == 0)
    && (|q| % 4 == 3 ==> q[|q| - 1] % 4 == 0)
  }

  lemma {:induction false} EncodeDecodeValues(q: seq<sextet>)
    requires |q| % 4 != 1
    requires TailBitsZero(q)
    ensures EncodeValues(DecodeValues(q)) == q
    decreases |q|
  {
    if |q| <= 4 {
      EncodeDecodeShort(q);
    } else {
      var head, rest := q[..4], q[4..];
      assert q == head + rest;
      assert |rest| % 4 == |q| % 4;
      assert rest[|rest| - 1] == q[|q| - 1];
      assert TailBitsZero(rest);
      assert TailBitsZero(head);
      DecodeValuesSplit(head, rest);
      EncodeValuesSplit(DecodeValues(head), DecodeValues(rest));
      EncodeDecodeShort(head);
      EncodeDecodeValues(rest);
    }
  }

  lemma {:induction false} RemoveWhitespaceKeeps(s: string)
    requires forall i | 0 <= i < |s| :: !IsAsciiWhitespace(s[i])
    ensures RemoveWhitespace(s) == s
    decreases |s|
  {
    if |s| > 0 {
      RemoveWhitespaceKeeps(s[1..]);
      assert s == [s[0]] + s[1..];
    }
  }

  lemma ValuesOfChars(q: seq<sextet>)
    ensures Values(Chars(q)) == q
  {
    forall i | 0 <= i < |q| ensures Values(Chars(q))[i] == q[i] {
      ValueOfCharOf(q[i]);
    }
  }

  lemma CharsOfValues(d: string)
    requires forall i | 0 <= i < |d| :: IsAlphabetChar(d[i])
    ensures Chars(Values(d)) == d
  {
  }

  /* ---------- length arithmetic ---------- */

  lemma EncodedLengthMod(n: nat)
    ensures (n * 4 + 2) / 3 % 4 == (if n % 3 == 0 then 0 else n % 3 + 1)
    ensures ((n * 4 + 2) / 3 + |Padding(n)|) % 4 == 0
  {
    var k, r := n / 3, n % 3;
    assert n * 4 + 2 == 12 * k + 4 * r + 2;
    assert (n * 4 + 2) / 3 == 4 * k + (4 * r + 2) / 3;
  }

  lemma DecodedLengthMod(m: nat)
    requires m % 4 != 1
    ensures m * 3 / 4 % 3 == (if m % 4 == 0 then 0 else m % 4 - 1)
  {
    var k, r := m / 4, m % 4;
    assert m * 3 == 12 * k + 3 * r;
    assert m * 3 / 4 == 3 * k + (3 * r) / 4;
  }

  /* ---------- the shape of an encoding ---------- */

  lemma EncodeHasNoWhitespace(b: seq<uint8>)
    ensures forall i | 0 <= i < |Encode(b)| :: !IsAsciiWhitespace(Encode(b)[i])
  {
    var q := EncodeValues(b);
    var e := Encode(b);
    forall i | 0 <= i < |e| ensures !IsAsciiWhitespace(e[i]) {
      if i < |q| { assert e[i] == Chars(q)[i]; }
    }
  }

  lemma RemovePaddingOfEncode(b: seq<uint8>)
    ensures RemovePadding(Encode(b)) == Chars(EncodeValues(b))
  {
    var q := EncodeValues(b);
    EncodedLengthMod(|b|);
    assert |b| > 0 ==> |q| > 0;
    RemovePaddingOfPadded(Chars(q), Padding(|b|));
  }

  /** On alphabet text of a whole number of groups once padded, removing the
      padding leaves the text. */
  lemma RemovePaddingOfPadded(d: string, p: string)
    requires forall i | 0 <= i < |d| :: IsAlphabetChar(d[i])
    requires p == "" || p == "=" || p == "=="
    requires p != "" ==> |d| > 0
    requires (|d| + |p|) % 4 == 0
    ensures RemovePadding(d + p) == d
  {
    var e := d + p;
    if p == "" {
      assert e == d;
      if |d| > 0 { assert IsAlphabetChar(d[|d| - 1]); }
    } else if p == "=" {
      assert e[|e| - 2] == d[|d| - 1];
    }
    assert e[..|d|] == d;
  }

  /** Decoding succeeds once whitespace and padding are gone and what remains
      is alphabet text of an admissible length. */
  lemma DecodeOfAlphabetText(s: string, d: string)
    requires RemovePadding(RemoveWhitespace(s)) == d
    requires |d| % 4 != 1
    requires forall i | 0 <= i < |d| :: IsAlphabetChar(d[i])
    ensures Decode(s) == Some(DecodeValues(Values(d)))
  {
  }

  /* ---------- the properties ---------- */

  /** What decoding sees of an encoding: the characters before the `=`. */
  lemma EncodeBody(b: seq<uint8>)
    ensures RemovePadding(RemoveWhitespace(Encode(b))) == Chars(EncodeValues(b))
  {
    EncodeHasNoWhitespace(b);
    RemoveWhitespaceKeeps(Encode(b));
    RemovePaddingOfEncode(b);
  }

  /** Decoding the encoding of any byte sequence gives it back. */
  lemma DecodeOfEncode(b: seq<uint8>)
    ensures Decode(Encode(b)) == Some(b)
  {
    var q := EncodeValues(b);
    EncodeBody(b);
    EncodedLengthMod(|b|);
    DecodeOfAlphabetText(Encode(b), Chars(q));
    ValuesOfChars(q);
    DecodeEncodeValues(b);
  }

  /** Only the empty sequence has the empty encoding. */
  lemma EncodeNonEmpty(b: seq<uint8>)
    requires |b| > 0
    ensures |Encode(b)| > 0
  {
    assert |EncodeValues(b)| > 0;
  }

  /** Every encoding is canonical. */
  lemma EncodeIsCanonical(b: seq<uint8>)
    ensures IsCanonical(Encode(b))
  {
    var q := EncodeValues(b);
    var d := Chars(q);
    BodyOfEncode(b);
    EncodedLengthMod(|b|);
    LastValueOfEncode(b);
    if |q| > 0 {
      assert d[|d| - 1] == CharOf(q[|q| - 1]);
      ValueOfCharOf(q[|q| - 1]);
    }
  }

  /** The `=` of an encoding are exactly its padding. */
  lemma BodyOfEncode(b: seq<uint8>)
    ensures PadCount(Encode(b)) == |Padding(|b|)|
    ensures Body(Encode(b)) == Chars(EncodeValues(b))
  {
    var q := EncodeValues(b);
    assert |b| > 0 ==> |q| > 0;
    BodyOfPadded(Chars(q), Padding(|b|));
  }

  /** Alphabet text followed by up to two `=` has those `=` as its padding. */
  lemma BodyOfPadded(d: string, p: string)
    requires forall i | 0 <= i < |d| :: IsAlphabetChar(d[i])
    requires p == "" || p == "=" || p == "=="
    requires p != "" ==> |d| > 0
    ensures PadCount(d + p) == |p|
    ensures Body(d + p) == d
  {
    var e := d + p;
    if p == "" {
      assert e == d;
      if |d| > 0 { assert IsAlphabetChar(e[|e| - 1]); }
    } else if p == "=" {
      assert e[|e| - 2] == d[|d| - 1];
    }
    assert e[..|d|] == d;
  }

  /** The last value of an encoding whose byte count is not a multiple of three
      has its unused low bits zero. */
  lemma {:induction false} LastValueOfEncode(b: seq<uint8>)
    ensures TailBitsZero(EncodeValues(b))
    decreases |b|
  {
    if |b| < 3 {
      LastValueOfShortEncode(b);
    } else {
      var head, rest := b[..3], b[3..];
      assert b == head + rest;
      EncodeValuesSplit(head, rest);
      LastValueOfEncode(rest);
      TailBitsZeroAfterGroups(EncodeValues(head), EncodeValues(rest));
    }
  }

  lemma LastValueOfShortEncode(b: seq<uint8>)
    requires |b| < 3
    ensures TailBitsZero(EncodeValues(b))
  {
    if |b| == 1 {
      LastValueOfOne(b);
    } else if |b| == 2 {
      LastValueOfTwo(b);
    }
  }

  lemma LastValueOfOne(b: seq<uint8>)
    requires |b| == 1
    ensures TailBitsZero(EncodeValues(b))
  {
    assert b == [b[0]];
    LastValueOfSingle(b[0]);
  }

  lemma LastValueOfTwo(b: seq<uint8>)
    requires |b| == 2
    ensures TailBitsZero(EncodeValues(b))
  {
    assert b == [b[0], b[1]];
    LastValueOfPair(b[0], b[1]);
  }

  lemma LastValueOfSingle(b0: uint8)
    ensures TailBitsZero(EncodeValues([b0]))
  {
    var c1: sextet := (b0 % 4) * 16;
    assert EncodeValues([b0])[1] == c1;
  }

  lemma LastValueOfPair(b0: uint8, b1: uint8)
    ensures TailBitsZero(EncodeValues([b0, b1]))
  {
    var c2: sextet := (b1 % 16) * 4;
    assert EncodeValues([b0, b1])[2] == c2;
  }

  /** Whole groups in front do not change the tail. */
  lemma TailBitsZeroAfterGroups(head: seq<sextet>, rest: seq<sextet>)
    requires |head| % 4 == 0
    requires TailBitsZero(rest)
    ensures TailBitsZero(head + rest)
  {
    var q := head + rest;
    if |rest| > 0 {
      assert q[|q| - 1] == rest[|rest| - 1];
    }
  }

  /** What decoding sees of a canonical encoding: the text before the `=`. */
  lemma CanonicalBody(s: string)
    requires IsCanonical(s)
    ensures RemovePadding(RemoveWhitespace(s)) == Body(s)
  {
    var p := PadCount(s);
    var d := Body(s);
    assert s == d + s[|d|..];
    forall i | 0 <= i < |s| ensures !IsAsciiWhitespace(s[i]) {
      if i < |d| { assert s[i] == d[i]; } else { assert s[i] == '='; }
    }
    RemoveWhitespaceKeeps(s);
    if p == 0 && |s| > 0 {
      assert s[|s| - 1] == d[|d| - 1];
    } else if p == 1 {
      assert s[|s| - 2] == d[|d| - 1];
    }
  }

  lemma CanonicalBodyLength(s: string)
    requires IsCanonical(s)
    ensures |Body(s)| % 4 == (if PadCount(s) == 0 then 0 else 4 - PadCount(s))
  {
    var p := PadCount(s);
    var k := |s| / 4;
    assert |s| == 4 * k;
    if p == 1 {
      assert |s| - p == 4 * (k - 1) + 3;
    } else if p == 2 {
      assert |s| - p == 4 * (k - 1) + 2;
    }
  }

  /** The padding the encoder writes after the decoding of a canonical text
      is the padding the text had. */
  lemma CanonicalPadding(s: string, n: nat)
    requires IsCanonical(s)
    requires n % 3 == (if PadCount(s) == 0 then 0 else 3 - PadCount(s))
    ensures Padding(n) == s[|Body(s)|..]
  {
    var p := PadCount(s);
    if p == 1 {
      assert s[|Body(s)|..] == [s[|s| - 1]];
    } else if p == 2 {
      assert s[|Body(s)|..] == [s[|s| - 2], s[|s| - 1]];
    }
  }

  /** The values of a canonical text have their unused low bits zero. */
  lemma CanonicalTailBits(s: string)
    requires IsCanonical(s)
    ensures TailBitsZero(Values(Body(s)))
  {
    var d := Body(s);
    var q := Values(d);
    CanonicalBodyLength(s);
    if |q| > 0 {
      assert q[|q| - 1] == ValueOf(d[|d| - 1]);
    }
  }

  /** A canonical encoding decodes, and re-encoding its bytes gives it back. */
  lemma EncodeOfDecode(s: string)
    requires IsCanonical(s)
    ensures Decode(s).Some?
    ensures Encode(Decode(s).value) == s
  {
    var d := Body(s);
    var q := Values(d);
    CanonicalBody(s);
    CanonicalBodyLength(s);
    CanonicalTailBits(s);
    DecodeOfAlphabetText(s, d);
    var b := DecodeValues(q);
    EncodeDecodeValues(q);
    CharsOfValues(d);
    DecodedLengthMod(|q|);
    CanonicalPadding(s, |b|);
    assert Encode(b) == d + Padding(|b|);
    assert s == d + s[|d|..];
  }

  /** The decoded length of a canonical encoding: three bytes per four
      characters, less one per `=`. */
  lemma DecodedLength(s: string)
    requires IsCanonical(s)
    ensures Decode(s).Some?
    ensures |Decode(s).value| == |s| / 4 * 3 - PadCount(s)
  {
    EncodeOfDecode(s);
    var b := Decode(s).value;
    assert |Encode(b)| == |EncodeValues(b)| + |Padding(|b|)|;
  }

  /** A character that is neither in the alphabet, nor whitespace, nor `=`
      makes decoding fail. */
  lemma RejectsForeignCharacter(s: string, i: nat)
    requires i < |s|
    requires !IsAlphabetChar(s[i]) && !IsAsciiWhitespace(s[i]) && s[i] != '='
    ensures Decode(s) == None
  {
    RemoveWhitespaceKeepsOther(s, i);
    var w := RemoveWhitespace(s);
    var d := RemovePadding(w);
    var j :| 0 <= j < |w| && w[j] == s[i];
    if |d| % 4 != 1 {
      if |d| < |w| {
        assert w[j] != '=';
        assert j < |d| && d[j] == w[j];
      }
      assert !IsAlphabetChar(d[j]);
    }
  }

  lemma {:induction false} RemoveWhitespaceKeepsOther(s: string, i: nat)
    requires i < |s| && !IsAsciiWhitespace(s[i])
    ensures s[i] in RemoveWhitespace(s)
    decreases |s|
  {
    if i > 0 {
      RemoveWhitespaceKeepsOther(s[1..], i - 1);
    }
  }

  /** Four characters of whitespace-free text with nothing to pad leave one
      character over: a length of 1 modulo 4 is rejected. */
  lemma RejectsLengthOneModFour(s: string)
    requires forall i | 0 <= i < |s| :: IsAlphabetChar(s[i])
    requires |s| % 4 == 1
    ensures Decode(s) == None
  {
    RemoveWhitespaceKeeps(s);
  }

  /* ---------- bit order of RFC 4648 section 4 ---------- */

  /** A group of four values is one 24-bit number read most significant
      value first, and the three bytes are that number read most significant
      byte first. */
  lemma DecodeGroupBits(c0: sextet, c1: sextet, c2: sextet, c3: sextet)
    ensures var b := DecodeValues([c0, c1, c2, c3]);
      && |b| == 3
      && b[0] as int * 65536 + b[1] as int * 256 + b[2] as int
         == c0 as int * 262144 + c1 as int * 4096 + c2 as int * 64 + c3 as int
  {
    assert [c0, c1, c2, c3][4..] == [];
  }

  /** A trailing group of three values is an 18-bit number whose two lowest
      bits are discarded; the other sixteen are the two bytes. */
  lemma DecodeTripleBits(c0: sextet, c1: sextet, c2: sextet)
    ensures var b := DecodeValues([c0, c1, c2]);
      && |b| == 2
      && b[0] as int * 1024 + b[1] as int * 4 + c2 as int % 4
         == c0 as int * 4096 + c1 as int * 64 + c2 as int
  {
  }

  /** A trailing group of two values is a 12-bit number whose four lowest
      bits are discarded; the other eight are the byte. */
  lemma DecodePairBits(c0: sextet, c1: sextet)
    ensures var b := DecodeValues([c0, c1]);
      && |b| == 1
      && b[0] as int * 16 + c1 as int % 16 == c0 as int * 64 + c1 as int
  {
  }

  /* ---------- test vectors of section 10 of RFC 4648 ---------- */

  /** `Zm9v` decodes to `foo`. */
  lemma DecodeFoo()
    ensures Decode("Zm9v") == Some([0x66 as uint8, 0x6F, 0x6F])
  {
    var s := "Zm9v";
    var b: seq<uint8> := [0x66, 0x6F, 0x6F];
    FooValues();
    FooGroup();
    DecodeOfAlphabetText(s, s);
    assert Decode(s) == Some(b);
  }

  lemma FooValues()
    ensures RemovePadding(RemoveWhitespace("Zm9v")) == "Zm9v"
    ensures forall i | 0 <= i < 4 :: IsAlphabetChar("Zm9v"[i])
    ensures Values("Zm9v") == [25, 38, 61, 47]
  {
    var s := "Zm9v";
    assert s == ['Z', 'm', '9', 'v'];
    RemoveWhitespaceKeeps(s);
    assert RemovePadding(s) == s;
    assert ValueOf('Z') == 25 && ValueOf('m') == 38 && ValueOf('9') == 61 && ValueOf('v') == 47;
  }

  lemma FooGroup()
    ensures DecodeValues([25, 38, 61, 47]) == [0x66, 0x6F, 0x6F]
  {
    var q: seq<sextet> := [25, 38, 61, 47];
    assert q[4..] == [];
  }

  /** `Zm8=` decodes to `fo`. */
  lemma DecodeFo()
    ensures Decode("Zm8=") == Some([0x66 as uint8, 0x6F])
  {
    var s, d := "Zm8=", "Zm8";
    assert s == ['Z', 'm', '8', '='] && d == ['Z', 'm', '8'];
    RemoveWhitespaceKeeps(s);
    assert RemovePadding(s) == d;
    DecodeOfAlphabetText(s, d);
    assert ValueOf('Z') == 25 && ValueOf('m') == 38 && ValueOf('8') == 60;
    assert Values(d) == [25, 38, 60];
  }

  /** `Zg==` decodes to `f`. */
  lemma DecodeF()
    ensures Decode("Zg==") == Some([0x66 as uint8])
  {
    var s, d := "Zg==", "Zg";
    assert s == ['Z', 'g', '=', '='] && d == ['Z', 'g'];
    RemoveWhitespaceKeeps(s);
    assert RemovePadding(s) == d;
    DecodeOfAlphabetText(s, d);
    assert ValueOf('Z') == 25 && ValueOf('g') == 32;
    assert Values(d) == [25, 32];
  }
}

=== FILE: data_uri.dfy ===
/** `AppComponent.dataURItoBlob` (src/app/app.component.ts): a `data:` URI,
    in the simplified form `data:<mime>;base64,<payload>` of RFC 2397, is cut
    at its commas, the payload is run through `atob`, the MIME type is read
    from the header, and the bytes become a Blob. Every exception inside the
    `try` turns into a `null` result, modelled as None. */
module DataUri {
  import opened Optional
  import opened JsString
  import opened Base64
  import opened FileApi

  /** `atob(payload)`: the decoded bytes as a "binary string", one character
      per byte; None where `atob` throws. */
  function Atob(payload: string): (r: Option<string>)
    ensures r.Some? <==> Decode(payload).Some?
    ensures r.Some? ==> |r.value| == |Decode(payload).value|
    ensures r.Some? ==> forall i | 0 <= i < |r.value| :: r.value[i] as int == Decode(payload).value[i]
  {
    match Decode(payload)
    case None => None
    case Some(b) => Some(seq(|b|, i requires 0 <= i < |b| => b[i] as char))
  }

  /** Storing a number into a `Uint8Array` element keeps it modulo 256. */
  function ToUint8(x: int): uint8
  {
    x % 256
  }

  /** The copy loop: element `i` of the array is `charCodeAt(i)` of the binary
      string, stored into a `Uint8Array`. */
  function CharCodes(byteString: string): (r: seq<uint8>)
    ensures |r| == |byteString|
    ensures forall i | 0 <= i < |r| :: r[i] as int == byteString[i] as int % 256
    ensures forall i | 0 <= i < |r| :: byteString[i] as int < 256 ==> r[i] as int == byteString[i] as int
  {
    seq(|byteString|, i requires 0 <= i < |byteString| => ToUint8(byteString[i] as int))
  }

  /** `header.split(':')[1].split(';')[0]`; None where `split(':')[1]` is
      undefined and the second `split` throws. */
  function MimeOf(header: string): (r: Option<string>)
    ensures r.Some? <==> ':' in header
    ensures r.Some? ==> ';' !in r.value
  {
    var fields := Split(header, ':');
    if |fields| < 2 then None
    else Some(Split(fields[1], ';')[0])
  }

  /** The text before the first comma of a URI. */
  function Header(uri: string): string
  {
    uri[..FirstIndex(uri, ',')]
  }

  /** The text after the first comma of a URI (empty when there is none). */
  function Payload(uri: string): string
  {
    if ',' in uri then uri[FirstIndex(uri, ',') + 1..] else ""
  }

  function DataUriToBlob(uri: string): (r: Option<Blob>)
    ensures Count(uri, ',') != 1 ==> r == None
    ensures r.Some? <==>
      Count(uri, ',') == 1 && ':' in Header(uri) && Decode(Payload(uri)).Some?
    ensures r.Some? ==> r.value.bytes == Decode(Payload(uri)).value
    ensures r.Some? ==> r.value.mimeType == NormalizeType(MimeOf(Header(uri)).value)
  {
    var parts := Split(uri, ',');
    if |parts| != 2 then None
    else
      SplitAtOnlySeparator(uri, ',');
      match Atob(parts[1])
      case None => None
      case Some(byteString) =>
        match MimeOf(parts[0])
        case None => None
        case Some(mime) =>
          NoTruncation(parts[1]);
          Some(NewBlob(CharCodes(byteString), mime))
  }

  /* ---------- lemmas ---------- */

  /** A string with exactly one separator splits into the text before it and
      the text after it. */
  lemma SplitAtOnlySeparator(s: string, sep: char)
    requires Count(s, sep) == 1
    ensures Split(s, sep) == [s[..FirstIndex(s, sep)], s[FirstIndex(s, sep) + 1..]]
  {
    var k := FirstIndex(s, sep);
    var before, after := s[..k], s[k + 1..];
    assert s == before + [sep] + after;
    SplitAfterFirst(before, after, sep);
    assert |Split(after, sep)| == 1;
    assert Count(after, sep) == 0;
    SplitWithoutSeparator(after, sep);
  }

  /** Every character `atob` produces has a code below 256, so copying the
      codes into a `Uint8Array` loses nothing: the bytes are exactly the
      decoded ones. */
  lemma NoTruncation(payload: string)
    requires Decode(payload).Some?
    ensures CharCodes(Atob(payload).value) == Decode(payload).value
  {
  }

  /** The second field of a split at a separator that occurs is the text
      between its first and its second occurrence. */
  lemma SecondPiece(s: string, sep: char)
    requires sep in s
    ensures |Split(s, sep)| >= 2
    ensures Split(s, sep)[1] == Split(s[FirstIndex(s, sep) + 1..], sep)[0]
  {
    var k := FirstIndex(s, sep);
    assert s == s[..k] + [sep] + s[k + 1..];
    SplitAfterFirst(s[..k], s[k + 1..], sep);
  }

  /** The MIME type is the text after the first `:` of the header, up to the
      next `:` or `;` or the end; a header without `:` has none. */
  lemma MimeOfCharacterized(header: string)
    ensures MimeOf(header).Some? <==> ':' in header
    ensures MimeOf(header).Some? ==>
      var rest := header[FirstIndex(header, ':') + 1..];
      var m := MimeOf(header).value;
      && StartsWith(rest, m)
      && ':' !in m && ';' !in m
      && (|m| == |rest| || rest[|m|] == ':' || rest[|m|] == ';')
  {
    if ':' in header {
      MimeOfAfterColon(header);
    } else {
      assert Count(header, ':') == 0;
    }
  }

  lemma MimeOfAfterColon(header: string)
    requires ':' in header
    ensures MimeOf(header).Some?
    ensures var rest := header[FirstIndex(header, ':') + 1..];
      var m := MimeOf(header).value;
      && StartsWith(rest, m)
      && ':' !in m && ';' !in m
      && (|m| == |rest| || rest[|m|] == ':' || rest[|m|] == ';')
  {
    var rest := header[FirstIndex(header, ':') + 1..];
    var f := rest[..FirstIndex(rest, ':')];
    var m := f[..FirstIndex(f, ';')];
    MimeOfField(header);
    assert rest[..|m|] == m;
  }

  /** The MIME type is cut from the text between the first and second `:`. */
  lemma MimeOfField(header: string)
    requires ':' in header
    ensures var rest := header[FirstIndex(header, ':') + 1..];
      var f := rest[..FirstIndex(rest, ':')];
      MimeOf(header) == Some(f[..FirstIndex(f, ';')])
  {
    var rest := header[FirstIndex(header, ':') + 1..];
    SecondPiece(header, ':');
    FirstPiece(rest, ':');
    var f := rest[..FirstIndex(rest, ':')];
    assert Split(header, ':')[1] == f;
    FirstPiece(f, ';');
  }

  /** A header of the form `data:<mime>;base64` yields `<mime>` when `<mime>`
      holds neither `:` nor `;`. */
  lemma MimeOfDataHeader(mime: string)
    requires ':' !in mime && ';' !in mime
    ensures MimeOf("data:" + mime + ";base64") == Some(mime)
  {
    var h := "data:" + mime + ";base64";
    assert h == "data" + [':'] + (mime + ";base64");
    SplitAfterFirst("data", mime + ";base64", ':');
    assert ':' !in mime + ";base64";
    SplitWithoutSeparator(mime + ";base64", ':');
    assert mime + ";base64" == mime + [';'] + "base64";
    SplitAfterFirst(mime, "base64", ';');
  }

  /** The data URI of any byte sequence, written with the canonical encoding,
      is decoded back to exactly those bytes, and carries the declared type in
      normal form. */
  lemma DataUriRoundTrip(mime: string, b: seq<uint8>)
    requires ',' !in mime && ':' !in mime && ';' !in mime
    ensures DataUriToBlob("data:" + mime + ";base64," + Encode(b)) == Some(Blob(NormalizeType(mime), b))
  {
    EncodeIsCanonical(b);
    DecodeOfEncode(b);
    DataUriOfCanonicalPayload(mime, Encode(b));
  }

  /** For a canonical payload the Blob holds the payload's decoding, with as
      many bytes as the decoding has, and re-encoding them gives the payload
      back. */
  lemma DataUriOfCanonicalPayload(mime: string, payload: string)
    requires ',' !in mime && ':' !in mime && ';' !in mime
    requires IsCanonical(payload)
    ensures Decode(payload).Some?
    ensures var r := DataUriToBlob("data:" + mime + ";base64," + payload);
      && r.Some?
      && r.value.mimeType == NormalizeType(mime)
      && r.value.bytes == Decode(payload).value
      && |r.value.bytes| == |payload| / 4 * 3 - PadCount(payload)
      && Encode(r.value.bytes) == payload
  {
    var uri := "data:" + mime + ";base64," + payload;
    CanonicalHasNoComma(payload);
    DataUriPieces(mime, payload);
    EncodeOfDecode(payload);
    DecodedLength(payload);
    MimeOfDataHeader(mime);
    var r := DataUriToBlob(uri);
    assert r.Some?;
  }

  /** Canonical base64 text holds no comma. */
  lemma CanonicalHasNoComma(payload: string)
    requires IsCanonical(payload)
    ensures ',' !in payload
  {
    forall i | 0 <= i < |payload| ensures payload[i] != ',' {
      if i < |Body(payload)| {
        assert payload[i] == Body(payload)[i];
      }
    }
  }

  /** A data URL whose payload holds no comma has exactly one comma, the one
      that ends its header. */
  lemma DataUriPieces(mime: string, payload: string)
    requires ',' !in mime && ',' !in payload
    ensures var uri := "data:" + mime + ";base64," + payload;
      && Count(uri, ',') == 1
      && Header(uri) == "data:" + mime + ";base64"
      && Payload(uri) == payload
  {
    var header := "data:" + mime + ";base64";
    var uri := "data:" + mime + ";base64," + payload;
    assert ',' !in header;
    assert uri == header + [','] + payload;
    FirstIndexAfter(header, payload, ',');
    SplitAfterFirst(header, payload, ',');
    SplitWithoutSeparator(payload, ',');
    assert Split(uri, ',') == [header, payload];
  }

  /** `image/jpeg` holds none of the separators the URI is cut at. */
  lemma JpegTypeIsPlain()
    ensures ',' !in "image/jpeg" && ':' !in "image/jpeg" && ';' !in "image/jpeg"
  {
    assert "image/jpeg" == ['i', 'm', 'a', 'g', 'e', '/', 'j', 'p', 'e', 'g'];
  }

  /** The JPEG data URI of any bytes decodes to those bytes, typed
      `image/jpeg`. */
  lemma JpegDataUriRoundTrip(b: seq<uint8>)
    ensures DataUriToBlob("data:image/jpeg;base64," + Encode(b)) == Some(Blob("image/jpeg", b))
  {
    assert "data:image/jpeg;base64," == "data:" + "image/jpeg" + ";base64,";
    JpegTypeIsPlain();
    JpegTypeIsNormal();
    DataUriRoundTrip("image/jpeg", b);
  }

  /** The example of a capture whose payload is `AAA=`: two zero bytes of type
      `image/jpeg`. */
  lemma JpegOfTwoZeroBytes()
    ensures DataUriToBlob("data:image/jpeg;base64,AAA=") == Some(Blob("image/jpeg", [0, 0]))
  {
    var b: seq<uint8> := [0, 0];
    assert Encode(b) == "AAA=" by {
      assert EncodeValues(b) == [0, 0, 0];
      assert Chars([0, 0, 0]) == "AAA";
      assert Padding(2) == "=";
    }
    assert "data:image/jpeg;base64," + "AAA=" == "data:image/jpeg;base64,AAA=";
    JpegDataUriRoundTrip(b);
  }
}

=== FILE: file_api.dfy ===
/** The browser's Blob and File objects reduced to records of what the
    component reads from them: a MIME type, a name and the bytes. The `type`
    option of both constructors is normalised as the File API prescribes
    (section 3.1 of the W3C File API): a value with a character outside
    U+0020..U+007E becomes empty, anything else is lower-cased. */
module FileApi {
  import opened Optional
  import opened Base64

  datatype Blob = Blob(mimeType: string, bytes: seq<uint8>)

  datatype File = File(name: string, mimeType: string, bytes: seq<uint8>)

  predicate IsPrintableAscii(c: char)
  {
    ' ' <= c <= '~'
  }

  function AsciiLower(c: char): (l: char)
    ensures !('A' <= l <= 'Z')
    ensures IsPrintableAscii(c) ==> IsPrintableAscii(l)
    ensures !('A' <= c <= 'Z') ==> l == c
    ensures 'A' <= c <= 'Z' ==> l as int == c as int + 32
  {
    if 'A' <= c <= 'Z' then (c as int + 32) as char else c
  }

  function NormalizeType(t: string): (r: string)
    ensures r == "" || |r| == |t|
    ensures forall i | 0 <= i < |r| :: IsPrintableAscii(r[i]) && !('A' <= r[i] <= 'Z')
    ensures (exists i | 0 <= i < |t| :: !IsPrintableAscii(t[i])) ==> r == ""
    ensures (forall i | 0 <= i < |t| :: IsPrintableAscii(t[i])) ==>
      |r| == |t| && forall i | 0 <= i < |t| :: r[i] == AsciiLower(t[i])
  {
    if exists i | 0 <= i < |t| :: !IsPrintableAscii(t[i]) then ""
    else seq(|t|, i requires 0 <= i < |t| => AsciiLower(t[i]))
  }

  /** `new Blob([bytes], { type })`. */
  function NewBlob(bytes: seq<uint8>, mimeType: string): Blob
  {
    Blob(NormalizeType(mimeType), bytes)
  }

  /** UTF-8 of an ASCII string, one byte per character. */
  function AsciiBytes(s: string): (b: seq<uint8>)
    requires forall i | 0 <= i < |s| :: s[i] as int < 128
    ensures |b| == |s|
  {
    seq(|s|, i requires 0 <= i < |s| => s[i] as int)
  }

  /** What a `null` blob part contributes to a File: WebIDL converts it to the
      string "null", which is stored UTF-8 encoded. */
  function NullPartBytes(): (b: seq<uint8>)
    ensures b == [0x6E, 0x75, 0x6C, 0x6C]
  {
    AsciiBytes("null")
  }

  /** `new File([part], name, { type })` for a single part that is either a
      Blob or `null`. */
  function NewFile(part: Option<Blob>, name: string, mimeType: string): (f: File)
    ensures f.name == name && f.mimeType == NormalizeType(mimeType)
    ensures part.Some? ==> f.bytes == part.value.bytes
    ensures part.None? ==> f.bytes == NullPartBytes()
  {
    var bytes := match part
      case Some(blob) => blob.bytes
      case None => NullPartBytes();
    File(name, NormalizeType(mimeType), bytes)
  }

  /** A type already in normal form is kept as it is. */
  lemma NormalizeTypeKeepsNormalForm(t: string)
    requires forall i | 0 <= i < |t| :: IsPrintableAscii(t[i]) && !('A' <= t[i] <= 'Z')
    ensures NormalizeType(t) == t
  {
  }

  /** Normalising twice is normalising once. */
  lemma NormalizeTypeIdempotent(t: string)
    ensures NormalizeType(NormalizeType(t)) == NormalizeType(t)
  {
    NormalizeTypeKeepsNormalForm(NormalizeType(t));
  }

  /** `image/jpeg`, the type the component gives its uploads, is already in
      normal form. */
  lemma JpegTypeIsNormal()
    ensures NormalizeType("image/jpeg") == "image/jpeg"
  {
    var t := "image/jpeg";
    assert t == ['i', 'm', 'a', 'g', 'e', '/', 'j', 'p', 'e', 'g'];
    forall i | 0 <= i < |t| ensures IsPrintableAscii(t[i]) && !('A' <= t[i] <= 'Z') {
      assert 'a' <= t[i] <= 'z' || t[i] == '/';
    }
    NormalizeTypeKeepsNormalForm(t);
  }
}

=== FILE: js_string.dfy ===
/** The few `String.prototype` operations the component relies on, for a
    one-character separator: `split`, its inverse `join`, and `startsWith`. */
module JsString {

  /** Number of occurrences of `c` in `s`. */
  function Count(s: string, c: char): (n: nat)
    ensures n <= |s|
    ensures n == 0 <==> c !in s
  {
    if |s| == 0 then 0
    else (if s[0] == c then 1 else 0) + Count(s[1..], c)
  }

  /** Position of the first `c` in `s`, or `|s|` when there is none. */
  function FirstIndex(s: string, c: char): (k: nat)
    ensures k <= |s|
    ensures c !in s[..k]
    ensures k < |s| <==> c in s
    ensures k < |s| ==> s[k] == c
  {
    if |s| == 0 then 0
    else if s[0] == c then 0
    else
      assert s[1..][..FirstIndex(s[1..], c)] == s[1..1 + FirstIndex(s[1..], c)];
      1 + FirstIndex(s[1..], c)
  }

  /** `s.split(sep)` for a one-character separator: the pieces between
      consecutive separators, so there is always one piece more than there are
      separators, and no piece contains the separator. */
  function Split(s: string, sep: char): (parts: seq<string>)
    ensures |parts| == Count(s, sep) + 1
    ensures forall i | 0 <= i < |parts| :: sep !in parts[i]
    decreases |s|
  {
    if |s| == 0 then [""]
    else
      var rest := Split(s[1..], sep);
      if s[0] == sep then [""] + rest
      else [[s[0]] + rest[0]] + rest[1..]
  }

  /** `parts.join(sep)`: the pieces with one separator between neighbours. */
  function Join(parts: seq<string>, sep: char): (s: string)
    requires |parts| >= 1
    decreases |parts|
  {
    if |parts| == 1 then parts[0]
    else parts[0] + [sep] + Join(parts[1..], sep)
  }

  /** `s.startsWith(p)`. */
  predicate StartsWith(s: string, p: string)
  {
    |p| <= |s| && s[..|p|] == p
  }

  /** Joining the pieces of a split gives the original string back. */
  lemma {:induction false} JoinOfSplit(s: string, sep: char)
    ensures Join(Split(s, sep), sep) == s
    decreases |s|
  {
    if |s| > 0 {
      var rest := Split(s[1..], sep);
      JoinOfSplit(s[1..], sep);
      if s[0] == sep {
        assert Split(s, sep) == [""] + rest;
        assert ([""] + rest)[1..] == rest;
        assert s == [sep] + s[1..];
      } else {
        var parts := Split(s, sep);
        assert parts == [[s[0]] + rest[0]] + rest[1..];
        if |rest| == 1 {
          assert Join(parts, sep) == [s[0]] + rest[0];
        } else {
          assert parts[1..] == rest[1..];
          assert Join(rest, sep) == rest[0] + [sep] + Join(rest[1..], sep);
        }
        assert s == [s[0]] + s[1..];
      }
    }
  }

  /** A string without the separator splits into itself alone. */
  lemma {:induction false} SplitWithoutSeparator(s: string, sep: char)
    requires sep !in s
    ensures Split(s, sep) == [s]
  {
    // the contract of Split already fixes the count at one piece; the piece
    // itself is s by JoinOfSplit
    JoinOfSplit(s, sep);
  }

  /** Splitting `a + sep + b`, where `a` has no separator, peels off `a` as the
      first piece. */
  lemma {:induction false} SplitAfterFirst(a: string, b: string, sep: char)
    requires sep !in a
    ensures Split(a + [sep] + b, sep) == [a] + Split(b, sep)
    decreases |a|
  {
    var s := a + [sep] + b;
    if |a| == 0 {
      assert s[1..] == b;
    } else {
      assert s[1..] == a[1..] + [sep] + b;
      SplitAfterFirst(a[1..], b, sep);
      assert [a[0]] + a[1..] == a;
    }
  }

  /** Splitting the join of separator-free pieces gives those pieces back, so
      `Split` and `Join` are mutually inverse. */
  lemma {:induction false} SplitOfJoin(parts: seq<string>, sep: char)
    requires |parts| >= 1
    requires forall i | 0 <= i < |parts| :: sep !in parts[i]
    ensures Split(Join(parts, sep), sep) == parts
    decreases |parts|
  {
    if |parts| == 1 {
      SplitWithoutSeparator(parts[0], sep);
    } else {
      SplitOfJoin(parts[1..], sep);
      SplitAfterFirst(parts[0], Join(parts[1..], sep), sep);
      assert [parts[0]] + parts[1..] == parts;
    }
  }

  /** The first separator of `a + sep + b`, where `a` has none, is the one
      after `a`. */
  lemma {:induction false} FirstIndexAfter(a: string, b: string, sep: char)
    requires sep !in a
    ensures FirstIndex(a + [sep] + b, sep) == |a|
    decreases |a|
  {
    if |a| > 0 {
      assert (a + [sep] + b)[1..] == a[1..] + [sep] + b;
      FirstIndexAfter(a[1..], b, sep);
    }
  }

  /** The first piece of a split is the text before the first separator. */
  lemma {:induction false} FirstPiece(s: string, sep: char)
    ensures Split(s, sep)[0] == s[..FirstIndex(s, sep)]
  {
    var k := FirstIndex(s, sep);
    if k == |s| {
      SplitWithoutSeparator(s, sep);
      assert s[..k] == s;
    } else {
      assert s == s[..k] + [sep] + s[k + 1..];
      SplitAfterFirst(s[..k], s[k + 1..], sep);
    }
  }
}

=== FILE: optional.dfy ===
/** The JavaScript `null`/`undefined` that the component uses as "no value",
    as an explicit Some/None datatype. */
module Optional {

  datatype Option<+T> = None | Some(value: T)
}
